=== FILE: README.md ===
# AutoLib lending backend, modelled in Dafny

AutoLib is a small library-lending web service. It registers and logs in
users, lists books, and lets a user borrow, renew and return a book. Each
data route runs SQL, parameterised where the route takes input, against two tables, `library_users` and
`books`. Every route but borrow runs a single statement; borrow first reads
the caller's username with a `SELECT` and then runs its conditional
`UPDATE`. The `WHERE` clause of the writing statement is the whole decision
rule.

This project recasts the database as an immutable value and each handler as
one atomic step from a database to an HTTP response and a new database:

- `store.dfy`: module `Store` holds the data model. `User` and `Book` are the
  table rows. `State` holds both tables, keyed by primary key, plus the next
  value of the user-id generator. `Valid` is the invariant every handler
  keeps: issued ids, unique usernames, and borrower columns that agree with
  each other and with the users table. `OnlyBookChanged` is the frame
  condition of the lending handlers. Module `Wrappers` holds `Option`, used
  for nullable columns and absent JSON fields.
- `responses.dfy`: module `Responses` holds a status code plus one body
  shape per JSON payload, and the handlers' error messages.
- `accounts.dfy`: module `Accounts` holds `Register`, the `Login` lookup
  (`FindUser`), and lemmas linking the two.
- `catalog.dfy`: module `Catalog` holds the two listings over one `Select`
  query, and lemmas on how lending changes a user's listing.
- `lending.dfy`: module `Lending` holds `Borrow`, `Renew` and `Return` as
  compare-and-set updates of one book. Its lemmas cover the lifecycle
  Available → Borrowed → Borrowed → Available.
- `service.dfy`: module `Service` holds one `Request` type for all routes,
  `Handle`, which dispatches a request and keeps `Valid`, and `Run`, which
  serves a whole sequence of requests. Path ids in `Request` are `nat`,
  because the router's integer converter accepts only digit strings.

`Store.Opening` models no code of the service. It is an assumed starting
state: a freshly deployed database with a catalogue of available books, no
users, and the id generator at 1. `Service.RoundTrip` starts from it.

The JSON fields a handler reads are `Option` values. The handlers treat a
field as missing when Python's `not` holds of it; for strings that means
absent, null or `""`. The current time `now` is an integer number of
seconds, and a borrow or renewal sets the deadline to `now + 30 * 86400`.
This matches the handlers only on a host whose clock has a fixed offset
from UTC; "## Left out" says what differs otherwise. Requests are assumed
to be served one at a time.

Some behaviours of the code worth noting:

- A failed borrow or renewal answers 404 and a duplicate username answers 400.
- Borrowing with an unknown or missing `userId` does not answer 404. The
  username lookup `fetchone()[0]` indexes `None`, so the handler raises an
  uncaught exception and the framework answers 500. `Lending.Borrow` models
  this as the `Crash` response with the database unchanged. The lookup comes
  before the book is examined, so an unknown user gets 500 even when the
  book is missing or already borrowed.
- A renewal without `userId` compares `borrowed_by = NULL`, which is never
  true, so it always answers 404.
- The insert in `register` reports every integrity error as "Username already
  exists". That includes a primary-key clash, which would happen if the id
  generator handed out an id already in use. `Accounts.InsertRejected` covers
  both cases. In a `Valid` state only the username case can arise.

## Model

| member | source | states |
|---|---|---|
| `Accounts.Register` | server.py:43-65 | A missing or empty field gives 400 "All fields are required", and this is checked before the confirmation. With all fields present, a mismatched confirmation gives 400 "Passwords do not match". The call answers 201 exactly when the fields are present, the confirmation matches and the insert is not rejected. On 201 exactly one user is added, under an id no user had, holding the given username and password, and the body reports that id and username; all other users and all books are unchanged. A taken username gives 400 "Username already exists". Every non-201 outcome is a 400 that leaves the database unchanged. |
| `Accounts.RegisterPreservesValid` | server.py:56-65 | Registration keeps the database valid. In particular usernames stay unique, which is the constraint the integrity-error handler relies on. |
| `Accounts.RegisterTwiceConflicts` | server.py:58-65 | After a name has been registered, registering it again fails with "Username already exists" whatever the new password, and changes nothing. |
| `Accounts.FindUser` | server.py:81-82 | The credential query returns a user stored with exactly that username and password, and returns nothing exactly when no user matches. |
| `Accounts.Login` | server.py:70-89 | A missing or empty field gives 400. Otherwise the call answers 200 exactly when some user has that exact username and password, with that user's id and username in the body; if none does it answers 401. No other outcome is possible in the model (see "## Left out" for NUL characters). Login has no database output, so it cannot change the database. |
| `Accounts.LoginDeterministic` | server.py:81-85 | In a valid database at most one user matches a given username and password, so repeated logins report the same user id. |
| `Accounts.RegisterThenLogin` | server.py:58-85 | After `register(name, pw, pw)` succeeds, the new user is the one and only user whom logging in with `(name, pw)` can report. |
| `Catalog.Select` | server.py:95-97 | The listing query returns the six-column projection of every book that matches its `WHERE` clause and of no other book, each book once. |
| `Catalog.UserBooks` | server.py:91-100 | `GET /user/books/<id>` answers 200 with exactly the books whose `borrowed_by` is that id, each once, in the six-field projection. |
| `Catalog.AllBooks` | server.py:102-111 | `GET /books` answers 200 with every book, each once, in the same projection. |
| `Catalog.BorrowAddsToHeld` | server.py:129-132 | A successful borrow adds the book to its borrower's listing and leaves every other user's listing as it was. |
| `Catalog.ReturnRemovesFromHeld` | server.py:164-167 | A return removes the book from every user's listing; when the book does not exist, every listing stays as it was. |
| `Catalog.RenewKeepsHeld` | server.py:150-153 | A renewal, successful or not, changes no user's listing. |
| `Lending.Borrow` | server.py:113-136 | An unknown or missing user id crashes with 500 and changes nothing. Otherwise the call answers 200 exactly when the book exists and is available. It then records the caller as borrower, the caller's stored username as `borrowed_by_username`, and `now + 30 days` as the deadline. Title and author are kept, only that book changes, and the body reports those three values. Any other outcome is 404 with the database unchanged. |
| `Lending.Renew` | server.py:138-157 | The call answers 200 exactly when the book exists and its `borrowed_by` is the caller's id. It then sets the deadline to `now + 30 days`, keeps the borrower fields, title and author, and changes no other book. Otherwise it answers 404 and changes nothing, so an available book, a non-borrower or a missing id never renews. |
| `Lending.Return` | server.py:160-171 | The call answers 200 exactly when the book exists, and then sets `borrowed_by`, `borrowed_by_username` and `expires` to null, whoever held the book. Title and author are kept and no other book changes. A missing book gives 404 and changes nothing. |
| `Lending.BorrowTwiceFails` | server.py:129-134 | Once a book has been borrowed, a second borrow of it fails for any caller at any time, and changes nothing. |
| `Lending.OnlyBorrowerRenews` | server.py:150-155 | Right after a borrow, a renewal succeeds exactly when the caller is the borrower. A refused renewal leaves the deadline set by the borrow. |
| `Lending.RenewExtendsDeadline` | server.py:145-150 | A renewal made after the borrow moves the deadline later. |
| `Lending.ReturnIdempotent` | server.py:164-167 | Returning a book a second time succeeds again and yields the same database. |
| `Lending.BorrowThenReturnRestores` | server.py:129-164 | In a valid database, borrowing an available book and then returning it gives back exactly the database from before the borrow. |
| `Lending.BorrowPreservesValid` | server.py:121-132 | A borrow keeps the database valid. The recorded borrower is a registered user, and the denormalised username is that user's name. |
| `Lending.RenewPreservesValid` | server.py:150-153 | A renewal keeps the database valid. |
| `Lending.ReturnPreservesValid` | server.py:164-167 | A return keeps the database valid. |
| `Service.Handle` | server.py:43-171 | Each request is one atomic step that keeps the database valid. Logins and listings leave the database exactly as it was. A borrow, renew or return changes at most the book it names. Only a registration touches the users. A 201 answer happens exactly when a registration changed the database. |
| `Service.RunPreservesValid` | server.py:43-171 | Any sequence of requests, served one at a time from a valid database, leaves it valid. Usernames stay unique, and every borrowed book names a registered borrower, with that borrower's username and a deadline. |
| `Service.RoundTrip` | server.py:43-169 | On a freshly deployed database, a new user registers, borrows a book, renews it later and returns it. Every step succeeds, the borrow and renewal report the expected deadlines with the later one greater, and afterwards the books table is exactly as it started. |
| `Service.RunKeepsRecords` | server.py:43-171 | Whatever requests are served, no user row is ever changed or removed. No book is ever added or removed, and no title or author ever changes; no handler writes those columns. |

## Left out

- The greeting route `/` is not part of this model. It reads no data and always answers with a fixed string.
- Flask routing, `request.get_json`, `jsonify` and cross-origin headers are left out. A response is kept only as a status code and a body shape. Success bodies carry their fixed `message` strings implicitly in the constructor.
- JSON field values that are not strings are left out, such as numbers, lists or `false` sent as a username. The model treats each text field as absent, null or a string. A request with no JSON body at all is left out too; it is handled by the framework.
- Lending.Borrow: models `userId` only as absent, null or an integer. A digit string such as `"7"` is converted by the database and behaves like 7. A JSON number with a fraction compares by value: `7.0` behaves like 7, and `7.5` matches no user, so the lookup finds no row and the request answers 500 as for an unknown user. A boolean, a non-numeric string or a list makes the `SELECT` raise an uncaught database error, so the request answers 500.
- Lending.Renew: models `userId` only as absent, null or an integer. A digit string behaves like the integer. A JSON number with a fraction compares by value: `7.0` behaves like 7, and `7.5` matches no row and answers 404. Only a boolean, a non-numeric string or a list makes the `UPDATE` raise an uncaught database error, so the request answers 500 instead of 404.
- Accounts.Register: promises that every non-201 answer is a 400, but the handler catches only integrity errors. Any other database error is uncaught and answers 500. So is a text value the driver refuses before the query runs, such as one holding a NUL character (server.py:57): for such values the model answers as for any other string, while the source answers 500.
- Accounts.Login: promises that the only outcomes are 200, 400 and 401. A username or password holding a NUL character is refused by the driver before the query (server.py:81) runs, and the uncaught error answers 500 in the source; the model answers such a request as for any other string (401 when no user matches, and 200 for a user registered with that name in the model).
- The transaction state of the shared connection is left out. After an uncaught database error, no handler rolls back (only register's integrity-error path does), so the connection stays in an aborted transaction and every later request that reaches the database also answers 500 (a register or login with a blank field, or a register with mismatched passwords, still answers 400 before any SQL runs). The model assumes each request starts on a healthy connection.
- Connecting to the store and the missing-`DATABASE_URL` case are left out. With no URL, every data route fails on an undefined connection. Cursors and commit/rollback are collapsed into "the step happens or it does not".
- Converting to the `America/Toronto` time zone is left out, because it does not change the instant. The wall clock is the parameter `now`.
- Lending.RenewExtendsDeadline: the model computes a deadline as the instant `now + 30 * 86400`. The handlers instead add 30 calendar days to the host's naive local clock reading and then read that result as local time. The two agree only when the host's time zone has a fixed offset, such as UTC, and the model assumes such a host. Under a zone with daylight saving time, a deadline whose 30 days cross a clock change is an hour early or late. A renewal made during the repeated autumn hour can even store an earlier deadline than one made just before it, so this lemma, `Lending.Borrow`, `Lending.Renew` and `Service.RoundTrip` describe only fixed-offset hosts.
- Concurrency between requests is left out: the model assumes requests are served one at a time, each as one atomic step. The source does not guarantee this. The development server serves requests on threads, and every handler shares the one module-level connection and therefore one transaction. One handler's commit or rollback then acts on another handler's statements. For example, a register that hits an integrity error rolls back, and that can discard another thread's borrow `UPDATE` that has run but is not yet committed, while that borrow still answers 200. Served one at a time, the borrow's `SELECT` and `UPDATE` may be taken as one step, because no handler changes or deletes a `library_users` row once inserted.
- The schema is not part of this model. User ids come from a counter in `State` that advances only on a successful insert. A real sequence may also consume a value when an insert fails, which affects only which fresh id is chosen. `Lending.Return` assumes the three borrower columns default to NULL, since the handler sets them to `DEFAULT`.
- Password hashing is left out because the service does not do it. Passwords are compared as plaintext, as stored.
- The port setting and the `__main__` start-up are left out as configuration.

=== FILE: accounts.dfy ===
/** Registration and login: the two handlers over `library_users`. */
module Accounts {
  import opened Wrappers
  import opened Store
  import opened Responses

  /** A JSON field the handler treats as missing: absent, null or the empty string. */
  predicate Blank(field: Option<string>) {
    field.None? || field.value == ""
  }

  predicate UsernameTaken(users: map<int, User>, name: string) {
    exists id | id in users :: users[id].username == name
  }

  /**
   Whether the INSERT into `library_users` violates a constraint: the unique
   username, or the primary key should the generator's next id already be in
   use. The handler reports either as "Username already exists".
   */
  predicate InsertRejected(st: State, name: string) {
    UsernameTaken(st.users, name) || st.nextUserId in st.users
  }

  /** User `id` is stored with exactly this username and this password. */
  predicate Authenticates(users: map<int, User>, id: int, name: string, password: string) {
    id in users && users[id] == User(name, password)
  }

  /**
   POST /register. Presence of the three fields is checked first, then the
   confirmation, then the insert, which the uniqueness constraint on the
   username may reject; a successful insert takes the generator's next id.
   */
  function Register(st: State, username: Option<string>, password: Option<string>,
                    confirm: Option<string>): (r: (Response, State))
    ensures Blank(username) || Blank(password) || Blank(confirm) ==>
              r == (Fail(400, MsgFieldsRequired), st)
    ensures !Blank(username) && !Blank(password) && !Blank(confirm) && password != confirm ==>
              r == (Fail(400, MsgPasswordsDiffer), st)
    ensures r.0.status == 201 <==>
              && !Blank(username) && !Blank(password) && password == confirm
              && !InsertRejected(st, username.value)
    ensures r.0.status == 201 ==>
              && r.0.body.Registered?
              && r.0.body.username == username.value
              && r.0.body.userId !in st.users
              && r.1.users.Keys == st.users.Keys + {r.0.body.userId}
              && Authenticates(r.1.users, r.0.body.userId, username.value, password.value)
              && (forall id :: id in st.users ==> id in r.1.users && r.1.users[id] == st.users[id])
              && r.1.books == st.books
              && r.1.nextUserId > r.0.body.userId
    ensures !Blank(username) && !Blank(password) && password == confirm &&
            InsertRejected(st, username.value) ==>
              r == (Fail(400, MsgUsernameExists), st)
    ensures r.0.status != 201 ==> r.1 == st && r.0.status == 400
  {
    if Blank(username) || Blank(password) || Blank(confirm) then
      (Fail(400, MsgFieldsRequired), st)
    else if password != confirm then
      (Fail(400, MsgPasswordsDiffer), st)
    else if InsertRejected(st, username.value) then
      (Fail(400, MsgUsernameExists), st)
    else
      var id := st.nextUserId;
      (Response(201, Registered(id, username.value)),
       st.(users := st.users[id := User(username.value, password.value)], nextUserId := id + 1))
  }

  lemma RegisterPreservesValid(st: State, username: Option<string>, password: Option<string>,
                               confirm: Option<string>)
    requires Valid(st)
    ensures Valid(Register(st, username, password, confirm).1)
  {
  }

  /**
   Registering a name a second time fails with "Username already exists",
   whatever the password, and changes nothing.
   */
  lemma RegisterTwiceConflicts(st: State, name: string, password: string,
                               password2: string, confirm2: string)
    requires Register(st, Some(name), Some(password), Some(password)).0.status == 201
    requires password2 != "" && password2 == confirm2
    ensures var st' := Register(st, Some(name), Some(password), Some(password)).1;
            Register(st', Some(name), Some(password2), Some(confirm2)) ==
              (Fail(400, MsgUsernameExists), st')
  {
    var r := Register(st, Some(name), Some(password), Some(password));
    assert r.1.users[r.0.body.userId].username == name;
  }

  /**
   The `SELECT ... WHERE username = %s AND password = %s` of the login handler
   followed by `fetchone()`: some matching user, or none when no row matches.
   */
  method FindUser(users: map<int, User>, name: string, password: string) returns (found: Option<int>)
    ensures found.None? <==> forall id :: id in users ==> !Authenticates(users, id, name, password)
    ensures found.Some? ==> Authenticates(users, found.value, name, password)
  {
    var unseen := users.Keys;
    while unseen != {}
      invariant unseen <= users.Keys
      invariant forall id :: id in users && id !in unseen ==> !Authenticates(users, id, name, password)
      decreases unseen
    {
      assert (forall id :: id !in unseen) ==> unseen == {};
      var candidate :| candidate in unseen;
      if users[candidate] == User(name, password) {
        return Some(candidate);
      }
      unseen := unseen - {candidate};
    }
    return None;
  }

  /** POST /login: both fields must be present, then the credentials must match a stored user. */
  method Login(st: State, username: Option<string>, password: Option<string>) returns (resp: Response)
    ensures Blank(username) || Blank(password) ==> resp == Fail(400, MsgCredentialsRequired)
    ensures !Blank(username) && !Blank(password) ==>
              (resp.status == 200 <==>
                 exists id :: Authenticates(st.users, id, username.value, password.value))
    ensures resp.status == 200 ==>
              && resp.body.LoggedIn?
              && resp.body.username == username.value
              && Authenticates(st.users, resp.body.userId, username.value, password.value)
    ensures resp.status != 200 ==>
              resp == if Blank(username) || Blank(password) then Fail(400, MsgCredentialsRequired)
                      else Fail(401, MsgBadCredentials)
  {
    if Blank(username) || Blank(password) {
      return Fail(400, MsgCredentialsRequired);
    }
    var found := FindUser(st.users, username.value, password.value);
    match found
    case Some(id) =>
      resp := Response(200, LoggedIn(id, username.value));
    case None =>
      resp := Fail(401, MsgBadCredentials);
  }

  /**
   In a valid database at most one user matches a username and password, so
   repeated successful logins with the same credentials report the same user.
   */
  lemma LoginDeterministic(st: State, name: string, password: string, id1: int, id2: int)
    requires Valid(st)
    requires Authenticates(st.users, id1, name, password)
    requires Authenticates(st.users, id2, name, password)
    ensures id1 == id2
  {
  }

  /**
   After `register(name, pw, pw)` succeeds, the new user is the one and only
   user that `login(name, pw)` can report.
   */
  lemma RegisterThenLogin(st: State, name: string, password: string)
    requires Valid(st)
    requires Register(st, Some(name), Some(password), Some(password)).0.status == 201
    ensures var r := Register(st, Some(name), Some(password), Some(password));
            forall id :: Authenticates(r.1.users, id, name, password) <==> id == r.0.body.userId
  {
  }
}

=== FILE: catalog.dfy ===
/** The two read-only listings of the `books` table. */
module Catalog {
  import opened Wrappers
  import opened Store
  import opened Responses
  import Lending

  /** The WHERE clause of a listing: none, or `borrowed_by = %s`. */
  datatype Filter = Everything | BorrowedBy(userId: int)

  predicate Matches(f: Filter, b: Book) {
    match f
    case Everything => true
    case BorrowedBy(u) => b.borrowedBy == Some(u)
  }

  /** The ids of the books `userId` holds: those whose `borrowed_by` is that id. */
  ghost function HeldBy(books: map<int, Book>, userId: int): set<int> {
    set id | id in books && books[id].borrowedBy == Some(userId)
  }

  /**
   `SELECT id, title, author, borrowed_by, borrowed_by_username, expires FROM books`
   with the filter's WHERE clause, then `fetchall()`. The query has no ORDER BY,
   so the order of the rows is left open: the result holds the projection of
   every matching book, of no other book, each exactly once.
   */
  method Select(books: map<int, Book>, f: Filter) returns (rows: seq<BookRow>)
    ensures forall row :: row in rows <==>
              row.id in books && Matches(f, books[row.id]) && row == Project(row.id, books[row.id])
    ensures forall i, j :: 0 <= i < j < |rows| ==> rows[i].id != rows[j].id
  {
    rows := [];
    var unseen := books.Keys;
    while unseen != {}
      invariant unseen <= books.Keys
      invariant forall row :: row in rows <==>
                  && row.id in books && row.id !in unseen
                  && Matches(f, books[row.id]) && row == Project(row.id, books[row.id])
      invariant forall i, j :: 0 <= i < j < |rows| ==> rows[i].id != rows[j].id
      decreases unseen
    {
      assert (forall id :: id !in unseen) ==> unseen == {};
      var id :| id in unseen;
      if Matches(f, books[id]) {
        rows := rows + [Project(id, books[id])];
      }
      unseen := unseen - {id};
    }
  }

  /** GET /user/books/<userId>: the books whose recorded borrower is `userId`. */
  method UserBooks(st: State, userId: int) returns (resp: Response)
    ensures resp.status == 200 && resp.body.Rows?
    ensures forall row :: row in resp.body.rows <==>
              row.id in HeldBy(st.books, userId) && row == Project(row.id, st.books[row.id])
    ensures forall i, j :: 0 <= i < j < |resp.body.rows| ==>
              resp.body.rows[i].id != resp.body.rows[j].id
  {
    var rows := Select(st.books, BorrowedBy(userId));
    resp := Response(200, Rows(rows));
  }

  /** GET /books: every book, unfiltered, in the same projection. */
  method AllBooks(st: State) returns (resp: Response)
    ensures resp.status == 200 && resp.body.Rows?
    ensures forall row :: row in resp.body.rows <==>
              row.id in st.books && row == Project(row.id, st.books[row.id])
    ensures forall i, j :: 0 <= i < j < |resp.body.rows| ==>
              resp.body.rows[i].id != resp.body.rows[j].id
  {
    var rows := Select(st.books, Everything);
    resp := Response(200, Rows(rows));
  }

  /**
   A successful borrow adds the book to its borrower's listing and to nobody
   else's.
   */
  lemma BorrowAddsToHeld(st: State, bookId: int, userId: int, now: int, someone: int)
    requires Lending.Borrow(st, bookId, Some(userId), now).0.status == 200
    ensures var st' := Lending.Borrow(st, bookId, Some(userId), now).1;
            HeldBy(st'.books, someone) ==
              if someone == userId then HeldBy(st.books, someone) + {bookId}
              else HeldBy(st.books, someone)
  {
    var st' := Lending.Borrow(st, bookId, Some(userId), now).1;
    assert bookId !in HeldBy(st.books, someone);
  }

  /** A return removes the book from every user's listing (a missing book is in none). */
  lemma ReturnRemovesFromHeld(st: State, bookId: int, someone: int)
    ensures HeldBy(Lending.Return(st, bookId).1.books, someone) == HeldBy(st.books, someone) - {bookId}
  {
  }

  /** A renewal leaves every user's listing as it was. */
  lemma RenewKeepsHeld(st: State, bookId: int, userId: Option<int>, now: int, someone: int)
    ensures HeldBy(Lending.Renew(st, bookId, userId, now).1.books, someone) == HeldBy(st.books, someone)
  {
  }
}

=== FILE: lending.dfy ===
/**
 Borrow, renew and return: each handler writes through one conditional UPDATE
 of the `books` table (borrow first reads the caller's username), and the
 UPDATE's WHERE clause is the whole decision rule.
 A book moves Available --borrow--> Borrowed --renew--> Borrowed --return--> Available.
 */
module Lending {
  import opened Wrappers
  import opened Store
  import opened Responses

  /**
   PUT /borrow/<bookId> with body `{userId}` at instant `now`. The borrower's
   username is fetched first; when no user has that id (or none was sent) the
   handler indexes the missing row and fails with an uncaught exception before
   any write. Otherwise the book is taken only if it exists and is available.
   */
  function Borrow(st: State, bookId: int, userId: Option<int>, now: int): (r: (Response, State))
    ensures userId.None? || userId.value !in st.users ==> r == (Crash, st)
    ensures r.0.status == 200 <==>
              && userId.Some? && userId.value in st.users
              && bookId in st.books && Available(st.books[bookId])
    ensures r.0.status == 200 ==> OnlyBookChanged(st, r.1, bookId)
    ensures r.0.status == 200 ==>
              var uid := userId.value;
              var before, after := st.books[bookId], r.1.books[bookId];
              && r.0.body == Borrowed(Deadline(now), uid, st.users[uid].username)
              && after.title == before.title && after.author == before.author
              && after.borrowedBy == Some(uid)
              && after.borrowedByUsername == Some(st.users[uid].username)
              && after.expires == Some(Deadline(now))
    ensures userId.Some? && userId.value in st.users && r.0.status != 200 ==>
              r == (Fail(404, MsgNotBorrowable), st)
  {
    if userId.None? || userId.value !in st.users then
      (Crash, st)
    else
      var uid := userId.value;
      var name := st.users[uid].username;
      if bookId in st.books && Available(st.books[bookId]) then
        var book := st.books[bookId].(borrowedBy := Some(uid), borrowedByUsername := Some(name),
                                      expires := Some(Deadline(now)));
        (Response(200, Borrowed(Deadline(now), uid, name)), st.(books := st.books[bookId := book]))
      else
        (Fail(404, MsgNotBorrowable), st)
  }

  /**
   PUT /renew/<bookId> with body `{userId}` at instant `now`: a new deadline,
   only if the caller is the recorded borrower. A missing userId compares as
   SQL NULL, which equals nothing, so it never renews.
   */
  function Renew(st: State, bookId: int, userId: Option<int>, now: int): (r: (Response, State))
    ensures r.0.status == 200 <==>
              bookId in st.books && userId.Some? && st.books[bookId].borrowedBy == userId
    ensures r.0.status == 200 ==> OnlyBookChanged(st, r.1, bookId)
    ensures r.0.status == 200 ==>
              var before, after := st.books[bookId], r.1.books[bookId];
              && r.0.body == Renewed(Deadline(now))
              && after.title == before.title && after.author == before.author
              && after.borrowedBy == before.borrowedBy
              && after.borrowedByUsername == before.borrowedByUsername
              && after.expires == Some(Deadline(now))
    ensures r.0.status != 200 ==> r == (Fail(404, MsgRenewFailed), st)
  {
    if bookId in st.books && userId.Some? && st.books[bookId].borrowedBy == userId then
      var book := st.books[bookId].(expires := Some(Deadline(now)));
      (Response(200, Renewed(Deadline(now))), st.(books := st.books[bookId := book]))
    else
      (Fail(404, MsgRenewFailed), st)
  }

  /**
   PUT /return/<bookId>: the three borrower columns are reset to their
   default, null, whoever holds the book and whether or not anyone does.
   */
  function Return(st: State, bookId: int): (r: (Response, State))
    ensures r.0.status == 200 <==> bookId in st.books
    ensures r.0.status == 200 ==> OnlyBookChanged(st, r.1, bookId)
    ensures r.0.status == 200 ==>
              var before, after := st.books[bookId], r.1.books[bookId];
              && r.0.body == Returned
              && after.title == before.title && after.author == before.author
              && Available(after) && after.borrowedByUsername.None? && after.expires.None?
    ensures r.0.status != 200 ==> r == (Fail(404, MsgReturnFailed), st)
  {
    if bookId in st.books then
      var book := st.books[bookId].(borrowedBy := None, borrowedByUsername := None, expires := None);
      (Response(200, Returned), st.(books := st.books[bookId := book]))
    else
      (Fail(404, MsgReturnFailed), st)
  }

  /** Once a book has been borrowed, no second borrow of it succeeds, by anyone. */
  lemma BorrowTwiceFails(st: State, bookId: int, first: Option<int>, second: Option<int>,
                         now: int, later: int)
    requires Borrow(st, bookId, first, now).0.status == 200
    ensures var st' := Borrow(st, bookId, first, now).1;
            && Borrow(st', bookId, second, later).0.status != 200
            && Borrow(st', bookId, second, later).1 == st'
  {
  }

  /**
   The borrower can renew the book; anyone else, or a request without a
   userId, is refused and the deadline stays as the borrow set it.
   */
  lemma OnlyBorrowerRenews(st: State, bookId: int, borrower: int, caller: Option<int>,
                           now: int, later: int)
    requires Borrow(st, bookId, Some(borrower), now).0.status == 200
    ensures var st' := Borrow(st, bookId, Some(borrower), now).1;
            && (Renew(st', bookId, caller, later).0.status == 200 <==> caller == Some(borrower))
            && (caller != Some(borrower) ==>
                  Renew(st', bookId, caller, later).1.books[bookId].expires == Some(Deadline(now)))
  {
  }

  /** A renewal made later than the borrow pushes the deadline later. */
  lemma RenewExtendsDeadline(st: State, bookId: int, borrower: int, now: int, later: int)
    requires Borrow(st, bookId, Some(borrower), now).0.status == 200
    requires now < later
    ensures var st' := Borrow(st, bookId, Some(borrower), now).1;
            var st'' := Renew(st', bookId, Some(borrower), later).1;
            st''.books[bookId].expires.value > st'.books[bookId].expires.value
  {
  }

  /** Returning is idempotent: a second return succeeds and changes nothing further. */
  lemma ReturnIdempotent(st: State, bookId: int)
    requires bookId in st.books
    ensures var st' := Return(st, bookId).1;
            Return(st', bookId) == (Response(200, Returned), st')
  {
    var st' := Return(st, bookId).1;
    assert st'.books[bookId := st'.books[bookId]] == st'.books;
  }

  /**
   In a valid database, borrowing an available book and returning it gives
   back exactly the database the borrow started from.
   */
  lemma BorrowThenReturnRestores(st: State, bookId: int, userId: Option<int>, now: int)
    requires Valid(st)
    requires Borrow(st, bookId, userId, now).0.status == 200
    ensures Return(Borrow(st, bookId, userId, now).1, bookId).1 == st
  {
    assert BorrowerConsistent(st.users, st.books[bookId]);
    var st'' := Return(Borrow(st, bookId, userId, now).1, bookId).1;
    assert st''.books == st.books;
  }

  lemma BorrowPreservesValid(st: State, bookId: int, userId: Option<int>, now: int)
    requires Valid(st)
    ensures Valid(Borrow(st, bookId, userId, now).1)
  {
  }

  lemma RenewPreservesValid(st: State, bookId: int, userId: Option<int>, now: int)
    requires Valid(st)
    ensures Valid(Renew(st, bookId, userId, now).1)
  {
  }

  lemma ReturnPreservesValid(st: State, bookId: int)
    requires Valid(st)
    ensures Valid(Return(st, bookId).1)
  {
  }
}

=== FILE: responses.dfy ===
/**
 What a handler hands back to the web framework: an HTTP status code and the
 JSON body, abstracted to one constructor per body shape.
 */
module Responses {
  import opened Store

  datatype Body =
    | Error(message: string)
      /** `{user_id, username, message: "User registered successfully"}` */
    | Registered(userId: int, username: string)
      /** `{user_id, username}` */
    | LoggedIn(userId: int, username: string)
      /** a JSON array of book projections */
    | Rows(rows: seq<BookRow>)
      /** `{message: "Book borrowed successfully", expires, borrowed_by, borrowed_by_username}` */
    | Borrowed(expires: int, borrowedBy: int, borrowedByUsername: string)
      /** `{message: "Book renewed successfully", new_expires}` */
    | Renewed(newExpires: int)
      /** `{message: "Book returned successfully"}` */
    | Returned
      /** the framework's own page for an exception the handler did not catch */
    | InternalError

  datatype Response = Response(status: int, body: Body)

  function Fail(status: int, message: string): Response {
    Response(status, Error(message))
  }

  /** An uncaught exception in a handler: the framework answers 500. */
  const Crash: Response := Response(500, InternalError)

  const MsgFieldsRequired: string := "All fields are required"
  const MsgPasswordsDiffer: string := "Passwords do not match"
  const MsgUsernameExists: string := "Username already exists"
  const MsgCredentialsRequired: string := "Username and password are required"
  const MsgBadCredentials: string := "Invalid username or password"
  const MsgNotBorrowable: string := "Book is already borrowed or does not exist"
  const MsgRenewFailed: string := "Book renewal failed. It may not be borrowed by the user or does not exist"
  const MsgReturnFailed: string := "Book return failed. It may not exist"
}

=== FILE: service.dfy ===
/**
 The service as a whole: one request is one atomic step from a database to a
 response and a database. Requests are served one at a time.
 */
module Service {
  import opened Wrappers
  import opened Store
  import opened Responses
  import Accounts
  import Lending
  import Catalog

  /**
   The routes that reach the database, with their path parameters and JSON
   fields. The router's integer converter matches only digit strings, so a
   path id is never negative; any other path is answered 404 by the router.
   */
  datatype Request =
    | Register(username: Option<string>, password: Option<string>, confirm: Option<string>)
    | Login(username: Option<string>, password: Option<string>)
    | UserBooks(borrower: nat)
    | AllBooks
    | Borrow(bookId: nat, userId: Option<int>)
    | Renew(bookId: nat, userId: Option<int>)
    | Return(bookId: nat)

  predicate ReadOnly(req: Request) {
    req.Login? || req.UserBooks? || req.AllBooks?
  }

  /** The database a request leaves behind; logins and listings leave it as it was. */
  function Apply(st: State, req: Request, now: int): State {
    match req
    case Register(username, password, confirm) => Accounts.Register(st, username, password, confirm).1
    case Borrow(bookId, userId) => Lending.Borrow(st, bookId, userId, now).1
    case Renew(bookId, userId) => Lending.Renew(st, bookId, userId, now).1
    case Return(bookId) => Lending.Return(st, bookId).1
    case _ => st
  }

  /** The database after serving `trace` in order, each request with the instant it arrived. */
  function Run(st: State, trace: seq<(Request, int)>): State
    decreases |trace|
  {
    if trace == [] then st else Run(Apply(st, trace[0].0, trace[0].1), trace[1..])
  }

  /**
   Serves `req` against `st` at instant `now`. Every step keeps the database
   valid; logins and listings leave it exactly as it was; a lending request
   touches at most the book it names; only a registration touches the users.
   */
  method Handle(st: State, req: Request, now: int) returns (resp: Response, st': State)
    requires Valid(st)
    ensures Valid(st')
    ensures st' == Apply(st, req, now)
    ensures ReadOnly(req) ==> st' == st
    ensures (req.Borrow? || req.Renew? || req.Return?) ==> OnlyBookChanged(st, st', req.bookId)
    ensures !req.Register? ==> st'.users == st.users
    ensures resp.status == 201 <==> req.Register? && st' != st
  {
    match req
    case Register(username, password, confirm) =>
      var r := Accounts.Register(st, username, password, confirm);
      resp, st' := r.0, r.1;
    case Login(username, password) =>
      resp := Accounts.Login(st, username, password);
      st' := st;
    case UserBooks(borrower) =>
      resp := Catalog.UserBooks(st, borrower);
      st' := st;
    case AllBooks =>
      resp := Catalog.AllBooks(st);
      st' := st;
    case Borrow(bookId, userId) =>
      var r := Lending.Borrow(st, bookId, userId, now);
      resp, st' := r.0, r.1;
    case Renew(bookId, userId) =>
      var r := Lending.Renew(st, bookId, userId, now);
      resp, st' := r.0, r.1;
    case Return(bookId) =>
      var r := Lending.Return(st, bookId);
      resp, st' := r.0, r.1;
  }

  lemma ApplyPreservesValid(st: State, req: Request, now: int)
    requires Valid(st)
    ensures Valid(Apply(st, req, now))
  {
  }

  /** Every sequence of requests served from a valid database leaves it valid. */
  lemma {:induction false} RunPreservesValid(st: State, trace: seq<(Request, int)>)
    requires Valid(st)
    ensures Valid(Run(st, trace))
    decreases |trace|
  {
    if trace != [] {
      ApplyPreservesValid(st, trace[0].0, trace[0].1);
      RunPreservesValid(Apply(st, trace[0].0, trace[0].1), trace[1..]);
    }
  }

  /**
   Whatever requests are served, no user is ever changed or removed, no book is
   ever added or removed, and no title or author ever changes.
   */
  lemma {:induction false} RunKeepsRecords(st: State, trace: seq<(Request, int)>)
    ensures var end := Run(st, trace);
            && (forall id :: id in st.users ==> id in end.users && end.users[id] == st.users[id])
            && end.books.Keys == st.books.Keys
            && (forall id :: id in st.books ==>
                  end.books[id].title == st.books[id].title && end.books[id].author == st.books[id].author)
    decreases |trace|
  {
    if trace != [] {
      var next := Apply(st, trace[0].0, trace[0].1);
      RunKeepsRecords(next, trace[1..]);
    }
  }

  /**
   The lending round trip on a fresh database: a new user registers, borrows a
   book, renews it later and returns it; each step succeeds, the renewal pushes
   the deadline later, and afterwards the book is available again.
   */
  lemma RoundTrip(catalogue: map<int, (string, string)>, bookId: int, name: string, password: string,
                  now: int, later: int)
    requires bookId in catalogue
    requires name != "" && password != ""
    requires now < later
    ensures var st0 := Opening(catalogue);
            var reg := Accounts.Register(st0, Some(name), Some(password), Some(password));
            var uid := reg.0.body.userId;
            var borrow := Lending.Borrow(reg.1, bookId, Some(uid), now);
            var renew := Lending.Renew(borrow.1, bookId, Some(uid), later);
            var ret := Lending.Return(renew.1, bookId);
            && reg.0.status == 201
            && borrow.0 == Response(200, Borrowed(Deadline(now), uid, name))
            && renew.0 == Response(200, Renewed(Deadline(later)))
            && Deadline(later) > Deadline(now)
            && ret.0.status == 200
            && ret.1.books == st0.books
  {
  }
}

=== FILE: store.dfy ===
/** The optional value used for nullable columns and for JSON fields that may be absent. */
module Wrappers {

  datatype Option<+T> = None | Some(value: T)
}

/**
 The relational store of the lending service, recast as an immutable value:
 the `library_users` and `books` tables keyed by their primary keys, and the
 identity generator that hands out `library_users.id`.
 */
module Store {
  import opened Wrappers

  /** A row of `library_users`; the password is the plaintext the client sent. */
  datatype User = User(username: string, password: string)

  /** A row of `books`; the three borrower columns are nullable. */
  datatype Book = Book(
    title: string,
    author: string,
    borrowedBy: Option<int>,
    borrowedByUsername: Option<string>,
    expires: Option<int>)

  /** The whole database. `nextUserId` is the next value of the users' id generator. */
  datatype State = State(users: map<int, User>, books: map<int, Book>, nextUserId: int)

  /** The six columns every book listing selects, in the order they are selected. */
  datatype BookRow = BookRow(
    id: int,
    title: string,
    author: string,
    borrowedBy: Option<int>,
    borrowedByUsername: Option<string>,
    expires: Option<int>)

  /** Seconds in a day; instants (`now`, `expires`) are counted in seconds. */
  const SecondsPerDay: int := 86400

  /** A borrow or a renewal lasts this many days. */
  const BorrowDays: int := 30

  /** The deadline set by a borrow or a renewal made at instant `now`. */
  function Deadline(now: int): int {
    now + BorrowDays * SecondsPerDay
  }

  /** A book is available exactly when nobody is recorded as its borrower. */
  predicate Available(b: Book) {
    b.borrowedBy.None?
  }

  function Project(id: int, b: Book): BookRow {
    BookRow(id, b.title, b.author, b.borrowedBy, b.borrowedByUsername, b.expires)
  }

  /** Every user id in use was handed out by the generator. */
  ghost predicate IdsIssued(st: State) {
    forall id :: id in st.users ==> id < st.nextUserId
  }

  /** The uniqueness constraint on `library_users.username`. */
  ghost predicate UniqueUsernames(users: map<int, User>) {
    forall a, b :: a in users && b in users && users[a].username == users[b].username ==> a == b
  }

  /**
   The borrower columns of a book agree with each other and with the users table:
   all null when the book is available; otherwise the borrower is a user, the
   denormalised username is that user's name and a deadline is recorded.
   */
  ghost predicate BorrowerConsistent(users: map<int, User>, b: Book) {
    match b.borrowedBy
    case None => b.borrowedByUsername.None? && b.expires.None?
    case Some(u) => u in users && b.borrowedByUsername == Some(users[u].username) && b.expires.Some?
  }

  /** The invariant every request handler preserves. */
  ghost predicate Valid(st: State) {
    && IdsIssued(st)
    && UniqueUsernames(st.users)
    && forall id :: id in st.books ==> BorrowerConsistent(st.users, st.books[id])
  }

  /**
   `st'` differs from `st` at most in the one book `bookId`: the users table,
   the id generator, the set of book ids and every other book are untouched.
   */
  ghost predicate OnlyBookChanged(st: State, st': State, bookId: int) {
    && st'.users == st.users
    && st'.nextUserId == st.nextUserId
    && st'.books.Keys == st.books.Keys
    && forall id :: id in st.books && id != bookId ==> st'.books[id] == st.books[id]
  }

  /**
   A database as first deployed: the given catalogue of (title, author) pairs,
   every book available, no users, and the id generator at 1.
   */
  function Opening(catalogue: map<int, (string, string)>): (st: State)
    ensures Valid(st)
    ensures st.users == map[]
    ensures st.books.Keys == catalogue.Keys
    ensures forall id :: id in st.books ==>
              && Available(st.books[id])
              && (st.books[id].title, st.books[id].author) == catalogue[id]
  {
    State(map[], map id | id in catalogue :: Book(catalogue[id].0, catalogue[id].1, None, None, None), 1)
  }
}
